=== FILE: README.md ===
# Xiaomi remote climate: command resolution, in Dafny

A model of the `RemoteClimate` device of the Home Assistant custom component
`custom_components/climate/xiaomi_remote.py`. The device has no channel of its
own. It keeps a desired-state record (on, away, operation mode, fan mode,
target temperature) and a mask of the features currently enabled. After each
setter call it resolves one infrared code from a user-supplied command table
and, when one is found, sends it as a `remote.send_command` service call with
the payload `raw:<code>`; a lookup miss sends nothing. The power listener
resolves without sending; restoring a saved state and the temperature listener
do not resolve at all.

Modules, one per file:

- `Wrappers` (`wrappers.dfy`): `Option`, with `GetOr` for `dict.get(key, default)`.
- `PyBuiltins` (`python_builtins.dfy`): `str.lower()` and `int()` as the engine uses them.
  `Lower` is specified as the one case variant with no capital left. Lemmas show that it
  is unique and idempotent, and that comparing lower-cased strings is a case-insensitive
  comparison. `Trunc` truncates toward zero.
- `Features` (`features.dfy`): the feature flags as an enumeration and masks as sets.
  `Xor` is the source's `^`. `EnabledAt` is an independent, feature-by-feature
  definition of the mask each table depth calls for.
- `Commands` (`commands.dfy`): the table (`OpNode`/`FanNode` variants under a
  `map<string, OpNode>`), the schema's guarantee `WellFormed`, the support mask, and the
  pure engine `Resolve`, with one lemma per branch.
- `XiaomiRemote` (`remote_climate.dfy`): the `RemoteClimate` class. Its fields are the
  Python attributes. `SendIr` and the seven setters are proved against `Resolve` through
  the predicate `Dispatched` (mask updated from the resolution, code sent, or a KeyError
  raised); `PowerChanged` updates the mask through `NextFlags` and sends nothing;
  `TempChanged` and `Restore` do not resolve at all. Each method's `modifies` clause names
  exactly the fields the Python method overwrites.
- `Scenarios` (`scenarios.dfy`): client methods that chain calls on a fresh device. Each
  one works for every table of the stated shape.

Behaviours the model keeps from the code:

- `off` and `idle` are ordinary top-level keys. An operation mode that lower-cases to
  `off` resolves as an operation-level leaf.
- At the operation level the mask is the support mask with temperature and fan removed.
  It keeps away mode whenever the table has an idle code. The XOR at lines 268 and 271
  acts as set difference because both bits are always in the support mask.
- On and away with no `idle` key raises a KeyError. The lookup at line 258 is outside
  the `try`, so the exception escapes before the mask is assigned. This is the
  `IdleMissing` outcome, and every method that resolves returns it as `raised`.
- The power listener overwrites `on` and recomputes the mask. It throws the chosen code
  away, so nothing is transmitted. A template error changes neither.
- Restore writes the saved mask back as it was, with no new resolution and nothing sent.

## Model

| member | source | states |
|---|---|---|
| `PyBuiltins.LowerChar` | custom_components/climate/xiaomi_remote.py:261-262 | one character lower-cased: never a capital afterwards, and changed exactly when it was a capital (into the letter 32 code points on) |
| `PyBuiltins.Lower` | custom_components/climate/xiaomi_remote.py:261-262 | the lower-cased name differs from the input only in case and holds no capital |
| `PyBuiltins.LowerUnique` | custom_components/climate/xiaomi_remote.py:261-262 | any case variant of `s` with no capital equals `Lower(s)`, so the contract of `Lower` fixes it |
| `PyBuiltins.LowerOfLowercase` | custom_components/climate/xiaomi_remote.py:261-262 | a name already in lower case is left unchanged |
| `PyBuiltins.LowerIdempotent` | custom_components/climate/xiaomi_remote.py:261-262 | lower-casing twice equals lower-casing once |
| `PyBuiltins.LowerDecidesCase` | custom_components/climate/xiaomi_remote.py:163 | two strings lower-case to the same string iff they differ only in case (both directions) |
| `PyBuiltins.Trunc` | custom_components/climate/xiaomi_remote.py:263 | `int(target)` truncates toward zero: `n <= x < n+1` for non-negative `x`, `n-1 < x <= n` for negative `x` |
| `PyBuiltins.TruncExamples` | custom_components/climate/xiaomi_remote.py:263 | 24.0 and 24.9 give key 24 and 25.0 gives 25; -0.5 gives 0, not -1 |
| `PyBuiltins.TruncOfInteger` | custom_components/climate/xiaomi_remote.py:263 | a whole-number target truncates to itself, so it is its own temperature key |
| `Features.Xor` | custom_components/climate/xiaomi_remote.py:268-271 | a flag is in `a ^ b` iff it is in exactly one of them |
| `Features.XorClears` | custom_components/climate/xiaomi_remote.py:268-271 | toggling a flag that is set removes exactly that flag |
| `Features.EnabledAt` | custom_components/climate/xiaomi_remote.py:266-274 | the reference mask per depth: on/off and operation always; fan iff the fan level was reached; temperature iff the temperature level was reached; away iff the device supports it |
| `Features.EnabledAtMonotone` | custom_components/climate/xiaomi_remote.py:266-274 | a deeper match enables strictly more features |
| `Commands.SupportFlags` | custom_components/climate/xiaomi_remote.py:127-131 | the support mask holds the four base flags, holds away mode iff the table has an `idle` key, and holds nothing else |
| `Commands.Resolve` | custom_components/climate/xiaomi_remote.py:252-279 | a found mask contains on/off and is within the support mask; KeyError escapes iff on, away and no `idle` key; a caught miss only happens when on and not away |
| `Commands.PowerOffOverrides` | custom_components/climate/xiaomi_remote.py:254-256 | when off, the result is `commands['off']` with mask exactly {on/off}, whatever the away flag, modes and target |
| `Commands.AwayChoosesIdle` | custom_components/climate/xiaomi_remote.py:257-259 | when on and away with an idle code, the result is `commands['idle']` with mask {on/off, away}, whatever the modes and target |
| `Commands.OperationLeafDisablesFanAndTemperature` | custom_components/climate/xiaomi_remote.py:266-268 | a code directly under the lower-cased operation is chosen with the support mask minus temperature and fan, which is the operation-level reference mask |
| `Commands.FanLeafDisablesTemperature` | custom_components/climate/xiaomi_remote.py:269-271 | a code directly under the lower-cased fan mode is chosen with the support mask minus temperature, which is the fan-level reference mask |
| `Commands.TemperatureLeafEnablesAll` | custom_components/climate/xiaomi_remote.py:272-274 | at full depth the code is `commands[op][fan][int(target)]` and the mask is the whole support mask |
| `Commands.FlagsFollowDepth` | custom_components/climate/xiaomi_remote.py:265-274 | when on and not away, a code is found iff some depth matches, and the mask is the reference mask of that depth |
| `Commands.MissingIffKeyAbsent` | custom_components/climate/xiaomi_remote.py:265-277 | a caught miss (no code, mask unchanged) happens iff on, not away, and no depth matches (a missing key at some level) |
| `Commands.OffAsOperationMode` | custom_components/climate/xiaomi_remote.py:261-268 | an operation mode that lower-cases to `off` picks the `off` code as an operation leaf, with the support mask minus temperature and fan |
| `Commands.ResolveIgnoresCase` | custom_components/climate/xiaomi_remote.py:261-262 | operation and fan names that differ only in case resolve identically |
| `Commands.ResolveOfLowered` | custom_components/climate/xiaomi_remote.py:261-262 | resolving the raw stored names equals resolving their lower-cased forms |
| `Commands.TruncatedTargetsShareKey` | custom_components/climate/xiaomi_remote.py:263-273 | in every power and away state, two targets whose truncations toward zero agree (negative ones included) resolve identically |
| `XiaomiRemote.AttributeIsOn` | custom_components/climate/xiaomi_remote.py:349-350 | a saved on/off attribute reads as on iff it is exactly `"on"`; an absent one reads as off |
| `XiaomiRemote.PowerAttribute` | custom_components/climate/xiaomi_remote.py:234 | the `power` attribute is `"on"` or `"off"`, and reading it back at restore gives the flag it was written from |
| `XiaomiRemote.IsPowerOn` | custom_components/climate/xiaomi_remote.py:163 | the rendered template means on iff it equals `true`, `on` or `1` ignoring case |
| `XiaomiRemote.PowerTemplateExamples` | custom_components/climate/xiaomi_remote.py:163 | `ON` and `True` mean on; `2` and `off` mean off |
| `XiaomiRemote.RemoteClimate.constructor` | custom_components/climate/xiaomi_remote.py:99-131 | a new device is off and not away, with mask {on/off}, the configured defaults, no reading, and a support mask that has away iff the table has `idle` |
| `XiaomiRemote.RemoteClimate.UpdateFlagsGetCommand` | custom_components/climate/xiaomi_remote.py:252-279 | the method returns the code of `Resolve` on the current fields, raises exactly in `Resolve`'s KeyError case, and updates the mask as `Resolve` says |
| `XiaomiRemote.RemoteClimate.SendCommand` | custom_components/climate/xiaomi_remote.py:281-286 | appends one service call to the remote with payload `raw:` + code |
| `XiaomiRemote.RemoteClimate.SendIr` | custom_components/climate/xiaomi_remote.py:288-292 | resolves, then sends the code if there is one; on a miss nothing is sent and the mask is unchanged |
| `XiaomiRemote.RemoteClimate.SetTemperature` | custom_components/climate/xiaomi_remote.py:294-299 | with no temperature, a complete no-op; otherwise stores the target and dispatches |
| `XiaomiRemote.RemoteClimate.SetFanMode` | custom_components/climate/xiaomi_remote.py:301-305 | stores the raw fan name, changes no other setpoint, and dispatches |
| `XiaomiRemote.RemoteClimate.SetOperationMode` | custom_components/climate/xiaomi_remote.py:307-311 | stores the raw operation name, changes no other setpoint, and dispatches |
| `XiaomiRemote.RemoteClimate.TurnOn` | custom_components/climate/xiaomi_remote.py:313-318 | sets on, clears away, dispatches, and never raises |
| `XiaomiRemote.RemoteClimate.TurnOff` | custom_components/climate/xiaomi_remote.py:320-325 | clears on and away, sends the `off` code, and leaves mask {on/off} |
| `XiaomiRemote.RemoteClimate.TurnAwayModeOn` | custom_components/climate/xiaomi_remote.py:327-331 | sets away and leaves on alone: while off, the `off` code and {on/off}; while on, the idle code and {on/off, away}, or a KeyError without an idle code |
| `XiaomiRemote.RemoteClimate.TurnAwayModeOff` | custom_components/climate/xiaomi_remote.py:333-337 | clears away, dispatches, and never raises |
| `XiaomiRemote.RemoteClimate.PowerChanged` | custom_components/climate/xiaomi_remote.py:157-168 | with a rendered template, on becomes the template's truth value and the mask is recomputed; a template error or no new state changes neither; nothing is ever sent |
| `XiaomiRemote.RemoteClimate.TempChanged` | custom_components/climate/xiaomi_remote.py:142-154 | with a new state, the current reading becomes the parsed value or none; nothing else changes |
| `XiaomiRemote.RemoteClimate.Restore` | custom_components/climate/xiaomi_remote.py:339-352 | with a snapshot, each of operation, target, mask and fan takes the saved value when present and keeps its own otherwise; on and away are on iff saved as `"on"`; without a snapshot nothing changes; nothing is resolved or sent |
| `Scenarios.RestoreOverDefaults` | custom_components/climate/xiaomi_remote.py:339-352 | restoring {heat, 20, power off} over the defaults gives heat, 20, off, not away, the default fan mode and mask {on/off}, with nothing sent |
| `Scenarios.AwayWhileOff` | custom_components/climate/xiaomi_remote.py:327-331 | on a fresh (off) device, away mode sends exactly the `off` code and leaves mask {on/off} |
| `Scenarios.PowerListenerIsSilent` | custom_components/climate/xiaomi_remote.py:157-168 | a template that reads as on turns the device on and sets the full support mask for a full-depth match, but sends nothing |
| `Scenarios.FractionalTargetKeepsKey` | custom_components/climate/xiaomi_remote.py:263-273 | turning on at 24 and then setting 24.9 sends the code under key 24 twice |
| `Scenarios.WholeDegreeChangesKey` | custom_components/climate/xiaomi_remote.py:263-273 | turning on at 24 and then setting 25.0 sends the code under 24, then the code under 25 |
| `Scenarios.FanLevelThenMiss` | custom_components/climate/xiaomi_remote.py:269-277 | a fan-level leaf sends its code with mask support minus temperature; a later unknown fan mode sends nothing and keeps that mask |

## Left out

- `async_setup_platform` and the voluptuous schemas (lines 48-95) are configuration loading. The model keeps only what the command schema guarantees, as `WellFormed`. Tables whose values are neither strings nor mappings are ruled out by the types. The source would hit such a value with a TypeError, which the model does not represent.
- Template rendering (line 163) is an input to `PowerChanged`: rendered text, or a template error.
- The temperature listener's float parsing and unit conversion (lines 147-152) go through `hass.config.units`. `TempChanged` takes their result as a parameter: a value, or none when parsing fails.
- State-change subscriptions (lines 133-139), `schedule_update_ha_state`, `async_schedule_update_ha_state` and the restore storage are host lifecycle. The saved state is an input to `Restore`.
- The service call in `_send_command` is recorded in the `sent` log. Its asynchronous completion is not modelled.
- The plain getters (lines 170-250), the name, unit, min/max temperature, step and the operation and fan lists are only stored for the host. They do not affect resolution.
- The numeric bit values of the `SUPPORT_*` constants are library constants. The flags are an abstract enumeration, and a mask is a set of them.
- `PyBuiltins.Lower`: lower-cases ASCII capitals only, while Python's `str.lower()` also folds non-ASCII letters.
- `PyBuiltins.LowerChar`: the per-character step of `Lower`, with the same restriction: `'É'` stays `'É'`, where Python gives `'é'`.
- `PyBuiltins.Trunc`: works on exact reals. Float rounding is not modelled. Neither is `int()` raising on an infinite or NaN target.
- Logging is not modelled: the warnings of the temperature and power listeners (lines 152 and 166) and the error logged on a lookup miss (line 277) have no counterpart; the miss itself is modelled.
- Saved attributes of the wrong type are not modelled. An example is an operation mode restored as `None`, which would make a later `.lower()` fail.

=== FILE: commands.dfy ===
/** The user-supplied infrared command table and the resolution engine of
    `RemoteClimate._update_flags_get_command`: from the desired state, pick the
    one code to transmit and recompute the enabled-feature mask from how deep
    the matching table branch went. */
module Commands {
  import opened Features
  import opened PyBuiltins
  import opened Wrappers

  /** An infrared code, as the raw string the remote understands. */
  type Code = string

  /** The two reserved top-level keys. They are ordinary keys of the same
      table as the operation modes. */
  const PowerOff: string := "off"
  const Idle: string := "idle"

  /** Below an operation mode: a code, or codes by integer temperature. */
  datatype FanNode = FanLeaf(code: Code) | TempMap(temps: map<int, Code>)

  /** Below a top-level key: a code, or entries by fan mode. */
  datatype OpNode = OpLeaf(code: Code) | FanMap(fans: map<string, FanNode>)

  type Table = map<string, OpNode>

  /** What the configuration schema guarantees of every table the device is
      built with: `off` is present and is a code, and `idle`, when present,
      is a code too. */
  predicate WellFormed(t: Table) {
    PowerOff in t && t[PowerOff].OpLeaf? && (Idle in t ==> t[Idle].OpLeaf?)
  }

  /** The device's maximum feature mask, fixed at construction: away mode is
      supported exactly when the table has an idle code. */
  function SupportFlags(t: Table): (s: Flags)
    ensures BaseFlags <= s
    ensures AwayMode in s <==> Idle in t
    ensures s <= BaseFlags + {AwayMode}
  {
    if Idle in t then BaseFlags + {AwayMode} else BaseFlags
  }

  /** The outcome of one resolution. */
  datatype Resolution =
    | Found(code: Code, flags: Flags)  // transmit `code`; the enabled mask becomes `flags`
    | Missing                          // a key was absent inside the `try`: no code, mask unchanged
    | IdleMissing                      // on and away without an idle code: the KeyError escapes

  /** The code a resolution hands back to its caller (`None` on a miss). */
  function CodeOf(r: Resolution): Option<Code> {
    if r.Found? then Some(r.code) else None
  }

  /** The enabled mask after a resolution, given the mask before it. */
  function NextFlags(r: Resolution, previous: Flags): Flags {
    if r.Found? then r.flags else previous
  }

  /** The resolution engine. The mode names are lower-cased and the target
      truncated to an integer only on the third branch, where they are used. */
  function Resolve(t: Table, on: bool, away: bool, operation: string, fanMode: string, target: real): (r: Resolution)
    requires WellFormed(t)
    ensures r.Found? ==> OnOff in r.flags && r.flags <= SupportFlags(t)
    ensures r.IdleMissing? <==> on && away && Idle !in t
    ensures r.Missing? ==> on && !away
  {
    if !on then
      Found(t[PowerOff].code, {OnOff})
    else if away then
      if Idle in t then Found(t[Idle].code, {OnOff, AwayMode}) else IdleMissing
    else
      var op, fan, temp := Lower(operation), Lower(fanMode), Trunc(target);
      if op !in t then Missing
      else match t[op]
        case OpLeaf(c) => Found(c, Xor(Xor(SupportFlags(t), {TargetTemperature}), {FanMode}))
        case FanMap(fans) =>
          if fan !in fans then Missing
          else match fans[fan]
            case FanLeaf(c) => Found(c, Xor(SupportFlags(t), {TargetTemperature}))
            case TempMap(temps) => if temp in temps then Found(temps[temp], SupportFlags(t)) else Missing
  }

  /** The branch the lookup reaches for an `on`, not-away device, if any. */
  predicate MatchesAt(t: Table, operation: string, fanMode: string, target: real, d: Depth) {
    var op, fan := Lower(operation), Lower(fanMode);
    op in t &&
    match d
      case OperationLevel => t[op].OpLeaf?
      case FanLevel => t[op].FanMap? && fan in t[op].fans && t[op].fans[fan].FanLeaf?
      case TemperatureLevel =>
        t[op].FanMap? && fan in t[op].fans && t[op].fans[fan].TempMap?
        && Trunc(target) in t[op].fans[fan].temps
  }

  /** Power-off overrides everything: whatever the away flag, modes and
      target, the `off` code is chosen and only on/off stays enabled. */
  lemma PowerOffOverrides(t: Table, away: bool, operation: string, fanMode: string, target: real)
    requires WellFormed(t)
    ensures Resolve(t, false, away, operation, fanMode, target) == Found(t[PowerOff].code, {OnOff})
  {
  }

  /** On and away: the idle code, with on/off and away enabled, whatever the
      modes and target. */
  lemma AwayChoosesIdle(t: Table, operation: string, fanMode: string, target: real)
    requires WellFormed(t) && Idle in t
    ensures Resolve(t, true, true, operation, fanMode, target) == Found(t[Idle].code, {OnOff, AwayMode})
  {
  }

  /** A code stored directly under the operation: fan and temperature
      controls are switched off, for every fan mode and every target. */
  lemma OperationLeafDisablesFanAndTemperature(t: Table, operation: string, fanMode: string, target: real)
    requires WellFormed(t) && MatchesAt(t, operation, fanMode, target, OperationLevel)
    ensures Resolve(t, true, false, operation, fanMode, target)
         == Found(t[Lower(operation)].code, SupportFlags(t) - {TargetTemperature, FanMode})
    ensures SupportFlags(t) - {TargetTemperature, FanMode} == EnabledAt(OperationLevel, Idle in t)
  {
    XorClears(SupportFlags(t), TargetTemperature);
    XorClears(SupportFlags(t) - {TargetTemperature}, FanMode);
  }

  /** A code stored directly under the fan mode: only the temperature
      control is switched off, for every target. */
  lemma FanLeafDisablesTemperature(t: Table, operation: string, fanMode: string, target: real)
    requires WellFormed(t) && MatchesAt(t, operation, fanMode, target, FanLevel)
    ensures Resolve(t, true, false, operation, fanMode, target)
         == Found(t[Lower(operation)].fans[Lower(fanMode)].code, SupportFlags(t) - {TargetTemperature})
    ensures SupportFlags(t) - {TargetTemperature} == EnabledAt(FanLevel, Idle in t)
  {
    XorClears(SupportFlags(t), TargetTemperature);
  }

  /** Full depth: the code under the truncated target, with the whole support
      mask enabled. */
  lemma TemperatureLeafEnablesAll(t: Table, operation: string, fanMode: string, target: real)
    requires WellFormed(t) && MatchesAt(t, operation, fanMode, target, TemperatureLevel)
    ensures Resolve(t, true, false, operation, fanMode, target)
         == Found(t[Lower(operation)].fans[Lower(fanMode)].temps[Trunc(target)], SupportFlags(t))
    ensures SupportFlags(t) == EnabledAt(TemperatureLevel, Idle in t)
  {
  }

  /** On and not away, the lookup finds a code exactly when some depth
      matches, and the mask it enables is the one that depth calls for. */
  lemma FlagsFollowDepth(t: Table, operation: string, fanMode: string, target: real)
    requires WellFormed(t)
    ensures Resolve(t, true, false, operation, fanMode, target).Found?
        <==> exists d :: MatchesAt(t, operation, fanMode, target, d)
    ensures forall d :: MatchesAt(t, operation, fanMode, target, d) ==>
              Resolve(t, true, false, operation, fanMode, target).flags == EnabledAt(d, Idle in t)
  {
    var r := Resolve(t, true, false, operation, fanMode, target);
    if MatchesAt(t, operation, fanMode, target, OperationLevel) {
      OperationLeafDisablesFanAndTemperature(t, operation, fanMode, target);
    } else if MatchesAt(t, operation, fanMode, target, FanLevel) {
      FanLeafDisablesTemperature(t, operation, fanMode, target);
    } else if MatchesAt(t, operation, fanMode, target, TemperatureLevel) {
      TemperatureLeafEnablesAll(t, operation, fanMode, target);
    } else {
      assert !r.Found?;
    }
  }

  /** A miss happens exactly when on, not away, and a key is absent at the
      operation, fan or temperature level. */
  lemma MissingIffKeyAbsent(t: Table, on: bool, away: bool, operation: string, fanMode: string, target: real)
    requires WellFormed(t)
    ensures Resolve(t, on, away, operation, fanMode, target).Missing?
        <==> on && !away && !(exists d :: MatchesAt(t, operation, fanMode, target, d))
  {
    if on && !away {
      FlagsFollowDepth(t, operation, fanMode, target);
    }
  }

  /** An operation mode that lower-cases to `off` is not a power command: it
      is the operation leaf under the reserved `off` key. */
  lemma OffAsOperationMode(t: Table, operation: string, fanMode: string, target: real)
    requires WellFormed(t) && Lower(operation) == PowerOff
    ensures Resolve(t, true, false, operation, fanMode, target)
         == Found(t[PowerOff].code, SupportFlags(t) - {TargetTemperature, FanMode})
  {
    OperationLeafDisablesFanAndTemperature(t, operation, fanMode, target);
  }

  /** Lookup is case-insensitive in both mode names: only their lower-case
      forms matter. */
  lemma ResolveIgnoresCase(t: Table, on: bool, away: bool, op1: string, op2: string, fan1: string, fan2: string, target: real)
    requires WellFormed(t) && EqualIgnoringCase(op1, op2) && EqualIgnoringCase(fan1, fan2)
    ensures Resolve(t, on, away, op1, fan1, target) == Resolve(t, on, away, op2, fan2, target)
  {
    LowerDecidesCase(op1, op2);
    LowerDecidesCase(fan1, fan2);
  }

  /** Storing the raw mode name or its lower-case form resolves alike. */
  lemma ResolveOfLowered(t: Table, on: bool, away: bool, operation: string, fanMode: string, target: real)
    requires WellFormed(t)
    ensures Resolve(t, on, away, operation, fanMode, target)
         == Resolve(t, on, away, Lower(operation), Lower(fanMode), target)
  {
    LowerIdempotent(operation);
    LowerIdempotent(fanMode);
  }

  /** Targets whose truncations toward zero agree select the same code, in
      every state: 24.0 and 24.9 both use key 24, and so do -0.5 and 0.5
      (key 0), where flooring would separate them. */
  lemma TruncatedTargetsShareKey(t: Table, on: bool, away: bool, operation: string, fanMode: string, x: real, y: real)
    requires WellFormed(t) && Trunc(x) == Trunc(y)
    ensures Resolve(t, on, away, operation, fanMode, x) == Resolve(t, on, away, operation, fanMode, y)
  {
  }
}

=== FILE: features.dfy ===
/** The climate platform's feature flags. The source combines the library's
    `SUPPORT_*` bit constants with `|` and `^`; here each flag is an element
    of an enumeration and a mask is a set of them. */
module Features {

  datatype Feature = OnOff | TargetTemperature | OperationMode | FanMode | AwayMode

  type Flags = set<Feature>

  /** The flags every device declares (line 127). */
  const BaseFlags: Flags := {OnOff, TargetTemperature, OperationMode, FanMode}

  /** Bitwise exclusive or of two masks. */
  function Xor(a: Flags, b: Flags): (r: Flags)
    ensures forall f :: f in r <==> (f in a) != (f in b)
  {
    (a - b) + (b - a)
  }

  /** Toggling a flag that is set clears it. */
  lemma XorClears(a: Flags, f: Feature)
    requires f in a
    ensures Xor(a, {f}) == a - {f}
  {
  }

  /** How deep the matching branch of the command table went: a code stored
      directly under the operation, under the fan mode, or under the
      temperature. */
  datatype Depth = OperationLevel | FanLevel | TemperatureLevel

  /** The flags that are meaningful at a given depth, spelt out feature by
      feature: the independent reference for the mask the engine derives by
      toggling bits off the support mask. */
  function EnabledAt(d: Depth, awayCapable: bool): (r: Flags)
    ensures OnOff in r && OperationMode in r
    ensures FanMode in r <==> d != OperationLevel
    ensures TargetTemperature in r <==> d == TemperatureLevel
    ensures AwayMode in r <==> awayCapable
  {
    {OnOff, OperationMode}
    + (if d != OperationLevel then {FanMode} else {})
    + (if d == TemperatureLevel then {TargetTemperature} else {})
    + (if awayCapable then {AwayMode} else {})
  }

  /** A deeper match never enables fewer features. */
  lemma EnabledAtMonotone(awayCapable: bool)
    ensures EnabledAt(OperationLevel, awayCapable) < EnabledAt(FanLevel, awayCapable)
    ensures EnabledAt(FanLevel, awayCapable) < EnabledAt(TemperatureLevel, awayCapable)
  {
    assert FanMode in EnabledAt(FanLevel, awayCapable);
    assert TargetTemperature in EnabledAt(TemperatureLevel, awayCapable);
  }
}

=== FILE: python_builtins.dfy ===
/** The two Python built-ins the resolution engine applies to the desired
    state before it looks anything up in the command table: `str.lower()` on
    the operation and fan mode names, and `int()` on the target temperature. */
module PyBuiltins {

  /** An ASCII capital letter. */
  predicate IsUpper(c: char) {
    'A' <= c <= 'Z'
  }

  /** `str.lower()` on a single character (ASCII letters only). */
  function LowerChar(c: char): (d: char)
    ensures !IsUpper(d)
    ensures IsUpper(c) <==> d != c
    ensures IsUpper(c) ==> 'a' <= d <= 'z' && d as int - c as int == 32
  {
    if IsUpper(c) then (c as int + 32) as char else c
  }

  /** No character of `s` is an ASCII capital. */
  predicate NoUpper(s: string) {
    forall i :: 0 <= i < |s| ==> !IsUpper(s[i])
  }

  /** `a` and `b` differ at most in the case of ASCII letters. */
  predicate EqualIgnoringCase(a: string, b: string) {
    |a| == |b| && forall i :: 0 <= i < |a| ==> LowerChar(a[i]) == LowerChar(b[i])
  }

  /** `str.lower()`: a case variant of `s` with no capital left in it. */
  function Lower(s: string): (r: string)
    ensures EqualIgnoringCase(r, s)
    ensures NoUpper(r)
  {
    if s == [] then [] else [LowerChar(s[0])] + Lower(s[1..])
  }

  /** There is only one such variant, so `Lower` is fixed by its contract. */
  lemma LowerUnique(a: string, s: string)
    requires EqualIgnoringCase(a, s) && NoUpper(a)
    ensures a == Lower(s)
  {
    var r := Lower(s);
    forall i | 0 <= i < |a| ensures a[i] == r[i] {
      assert LowerChar(a[i]) == a[i] && LowerChar(r[i]) == r[i];
    }
  }

  /** A string that is already lower-case is left alone. */
  lemma LowerOfLowercase(s: string)
    requires NoUpper(s)
    ensures Lower(s) == s
  {
    LowerUnique(s, s);
  }

  /** Lower-casing twice is lower-casing once. */
  lemma LowerIdempotent(s: string)
    ensures Lower(Lower(s)) == Lower(s)
  {
    LowerOfLowercase(Lower(s));
  }

  /** Two strings lower-case to the same string exactly when they differ
      only in case: the comparisons the source makes after `.lower()` are
      case-insensitive comparisons. */
  lemma LowerDecidesCase(a: string, b: string)
    ensures Lower(a) == Lower(b) <==> EqualIgnoringCase(a, b)
  {
    var la, lb := Lower(a), Lower(b);
    if EqualIgnoringCase(a, b) {
      forall i | 0 <= i < |la| ensures la[i] == lb[i] {
        assert LowerChar(la[i]) == la[i] && LowerChar(lb[i]) == lb[i];
      }
    }
    if la == lb {
      forall i | 0 <= i < |a| ensures LowerChar(a[i]) == LowerChar(b[i]) {
        assert LowerChar(la[i]) == LowerChar(a[i]);
      }
    }
  }

  /** `int(x)` on a number: truncation toward zero, not rounding and not
      flooring. */
  function Trunc(x: real): (n: int)
    ensures 0.0 <= x ==> n as real <= x < n as real + 1.0
    ensures x < 0.0 ==> n as real - 1.0 < x <= n as real
  {
    if x >= 0.0 then x.Floor else -((-x).Floor)
  }

  /** Targets 24.0 and 24.9 share the key 24; 25.0 is key 25; -0.5 is key 0
      (where flooring would give -1). */
  lemma TruncExamples()
    ensures Trunc(24.0) == 24 && Trunc(24.9) == 24 && Trunc(25.0) == 25
    ensures Trunc(-0.5) == 0
  {
  }

  /** Truncating a whole number gives it back: an integral target is its own
      temperature key. */
  lemma TruncOfInteger(n: int)
    ensures Trunc(n as real) == n
  {
  }
}

=== FILE: remote_climate.dfy ===
/** The `RemoteClimate` device of `custom_components/climate/xiaomi_remote.py`:
    a desired-state record whose setters overwrite fields, re-run the
    resolution engine and transmit the chosen infrared code through the
    remote when one is found; the power listener re-runs the engine without
    transmitting, and the restore step only overwrites fields. */
module XiaomiRemote {
  import opened Wrappers
  import opened Features
  import opened PyBuiltins
  import opened Commands

  /** Home Assistant's `STATE_ON` and `STATE_OFF`. */
  const StateOn: string := "on"
  const StateOff: string := "off"

  /** `attributes.get(key, STATE_OFF) == STATE_ON`: how the restore step reads
      an on/off attribute; an absent attribute reads as off. */
  function AttributeIsOn(a: Option<string>): (on: bool)
    ensures a.None? ==> !on
    ensures on <==> a == Some(StateOn)
  {
    a.GetOr(StateOff) == StateOn
  }

  /** The `power` state attribute; restoring it gives back the flag it was
      written from. */
  function PowerAttribute(on: bool): (s: string)
    ensures s == StateOn || s == StateOff
    ensures AttributeIsOn(Some(s)) == on
  {
    if on then StateOn else StateOff
  }

  /** How the power listener reads the rendered template: on exactly when
      it is `true`, `on` or `1` in any mix of case. */
  function IsPowerOn(rendered: string): (on: bool)
    ensures on <==>
      EqualIgnoringCase(rendered, "true") || EqualIgnoringCase(rendered, "on") || EqualIgnoringCase(rendered, "1")
  {
    LowerOfLowercase("true");
    LowerOfLowercase("on");
    LowerOfLowercase("1");
    LowerDecidesCase(rendered, "true");
    LowerDecidesCase(rendered, "on");
    LowerDecidesCase(rendered, "1");
    Lower(rendered) in {"true", "on", "1"}
  }

  /** `ON` and `True` mean on; `2` and `off` do not. */
  lemma PowerTemplateExamples()
    ensures IsPowerOn("ON") && IsPowerOn("True")
    ensures !IsPowerOn("2") && !IsPowerOn("off")
  {
    assert IsPowerOn("ON") == EqualIgnoringCase("ON", "on");
    assert IsPowerOn("True") == EqualIgnoringCase("True", "true");
  }

  /** The attributes of a saved state that the restore step reads, each absent
      or present. */
  datatype Attributes = Attributes(
    operationMode: Option<string>,
    temperature: Option<real>,
    supportedFeatures: Option<Flags>,
    fanMode: Option<string>,
    power: Option<string>,
    awayMode: Option<string>)

  /** One `remote.send_command` service call: the remote's entity id and the
      command payload. */
  datatype ServiceCall = ServiceCall(entityId: string, command: string)

  /** The result of rendering the power template. */
  datatype Render = Rendered(text: string) | TemplateError

  class RemoteClimate {
    const remoteEntityId: string
    const commands: Table
    const supportFlags: Flags

    var targetTemperature: real
    var currentTemperature: Option<real>
    var currentOperation: string
    var currentFanMode: string
    var on: bool
    var away: bool
    var enabledFlags: Flags

    /** The service calls made so far, oldest first. */
    var sent: seq<ServiceCall>

    /** The table is one the configuration schema accepts, and the support
        mask is the one computed from it at construction. */
    predicate Valid() {
      WellFormed(commands) && supportFlags == SupportFlags(commands)
    }

    constructor (remoteEntityId: string, commands: Table, targetTemp: nat,
                 defaultOperation: string, defaultFanMode: string)
      requires WellFormed(commands)
      ensures Valid()
      ensures this.remoteEntityId == remoteEntityId && this.commands == commands
      ensures targetTemperature == targetTemp as real && currentTemperature == None
      ensures currentOperation == defaultOperation && currentFanMode == defaultFanMode
      ensures !on && !away
      ensures enabledFlags == {OnOff}
      ensures AwayMode in supportFlags <==> Idle in commands
      ensures sent == []
    {
      this.remoteEntityId := remoteEntityId;
      this.commands := commands;
      var support := {OnOff, TargetTemperature, OperationMode, FanMode};
      if Idle in commands {
        support := support + {AwayMode};
      }
      this.supportFlags := support;
      targetTemperature := targetTemp as real;
      currentTemperature := None;
      currentOperation := defaultOperation;
      currentFanMode := defaultFanMode;
      on := false;
      away := false;
      enabledFlags := {OnOff};
      sent := [];
    }

    /** What the resolution engine makes of the current desired state. */
    function CurrentResolution(): Resolution
      requires Valid()
      reads this`on, this`away, this`currentOperation, this`currentFanMode, this`targetTemperature
    {
      Resolve(commands, on, away, currentOperation, currentFanMode, targetTemperature)
    }

    /** The service calls a resolution gives rise to. */
    function Transmission(r: Resolution): seq<ServiceCall> {
      if r.Found? then [ServiceCall(remoteEntityId, "raw:" + r.code)] else []
    }

    /** The state after `_send_ir`, given the mask and the calls before it:
        the mask follows the resolution, its code (if any) was sent, and a
        missing idle code raised. */
    ghost predicate Dispatched(previousFlags: Flags, previousSent: seq<ServiceCall>, raised: bool)
      requires Valid()
      reads this
    {
      var r := CurrentResolution();
      && raised == r.IdleMissing?
      && enabledFlags == NextFlags(r, previousFlags)
      && sent == previousSent + Transmission(r)
    }

    /** `_update_flags_get_command`: returns the chosen code, or `None` on a
        miss, and updates the enabled mask; `raised` is the KeyError that a
        missing idle code lets escape, before the mask is touched. */
    method UpdateFlagsGetCommand() returns (command: Option<Code>, raised: bool)
      requires Valid()
      modifies this`enabledFlags
      ensures raised == CurrentResolution().IdleMissing?
      ensures command == CodeOf(CurrentResolution())
      ensures enabledFlags == NextFlags(CurrentResolution(), old(enabledFlags))
    {
      raised := false;
      if !on {
        command := Some(commands[PowerOff].code);
        enabledFlags := {OnOff};
      } else if away {
        if Idle !in commands {
          return None, true;
        }
        command := Some(commands[Idle].code);
        enabledFlags := {OnOff, AwayMode};
      } else {
        var operation := Lower(currentOperation);
        var fanMode := Lower(currentFanMode);
        var temp := Trunc(targetTemperature);
        if operation !in commands {
          command := None;
        } else {
          match commands[operation]
          case OpLeaf(c) =>
            command := Some(c);
            enabledFlags := Xor(Xor(supportFlags, {TargetTemperature}), {FanMode});
          case FanMap(fans) =>
            if fanMode !in fans {
              command := None;
            } else {
              match fans[fanMode]
              case FanLeaf(c) =>
                command := Some(c);
                enabledFlags := Xor(supportFlags, {TargetTemperature});
              case TempMap(temps) =>
                if temp in temps {
                  command := Some(temps[temp]);
                  enabledFlags := supportFlags;
                } else {
                  command := None;
                }
            }
        }
      }
    }

    /** `_send_command`: one `remote.send_command` call with the raw code. */
    method SendCommand(code: Code)
      modifies this`sent
      ensures sent == old(sent) + [ServiceCall(remoteEntityId, "raw:" + code)]
    {
      sent := sent + [ServiceCall(remoteEntityId, "raw:" + code)];
    }

    /** `_send_ir`: resolve, then transmit the code if there is one. */
    method SendIr() returns (raised: bool)
      requires Valid()
      modifies this`enabledFlags, this`sent
      ensures Dispatched(old(enabledFlags), old(sent), raised)
    {
      var command;
      command, raised := UpdateFlagsGetCommand();
      if raised {
        return;
      }
      if command.Some? {
        SendCommand(command.value);
      }
    }

    /** `set_temperature`: without a temperature nothing happens at all. */
    method SetTemperature(temperature: Option<real>) returns (raised: bool)
      requires Valid()
      modifies this`targetTemperature, this`enabledFlags, this`sent
      ensures temperature.None? ==>
        targetTemperature == old(targetTemperature) && enabledFlags == old(enabledFlags)
        && sent == old(sent) && !raised
      ensures temperature.Some? ==>
        targetTemperature == temperature.value && Dispatched(old(enabledFlags), old(sent), raised)
    {
      raised := false;
      if temperature.Some? {
        targetTemperature := temperature.value;
        raised := SendIr();
      }
    }

    /** `set_fan_mode`: the raw name is stored; lower-casing happens only at
        lookup. */
    method SetFanMode(fan: string) returns (raised: bool)
      requires Valid()
      modifies this`currentFanMode, this`enabledFlags, this`sent
      ensures currentFanMode == fan
      ensures Dispatched(old(enabledFlags), old(sent), raised)
    {
      currentFanMode := fan;
      raised := SendIr();
    }

    /** `set_operation_mode`: the raw name is stored; lower-casing happens
        only at lookup. */
    method SetOperationMode(operationMode: string) returns (raised: bool)
      requires Valid()
      modifies this`currentOperation, this`enabledFlags, this`sent
      ensures currentOperation == operationMode
      ensures Dispatched(old(enabledFlags), old(sent), raised)
    {
      currentOperation := operationMode;
      raised := SendIr();
    }

    /** `turn_on`: also leaves away mode, so it never raises. */
    method TurnOn() returns (raised: bool)
      requires Valid()
      modifies this`on, this`away, this`enabledFlags, this`sent
      ensures on && !away && !raised
      ensures Dispatched(old(enabledFlags), old(sent), raised)
    {
      on := true;
      away := false;
      raised := SendIr();
    }

    /** `turn_off`: also leaves away mode, and always sends the `off` code. */
    method TurnOff() returns (raised: bool)
      requires Valid()
      modifies this`on, this`away, this`enabledFlags, this`sent
      ensures !on && !away && !raised
      ensures enabledFlags == {OnOff}
      ensures sent == old(sent) + [ServiceCall(remoteEntityId, "raw:" + commands[PowerOff].code)]
    {
      on := false;
      away := false;
      raised := SendIr();
    }

    /** `turn_away_mode_on`: the on flag is left alone, so while off the
        power-off code is still the one sent. */
    method TurnAwayModeOn() returns (raised: bool)
      requires Valid()
      modifies this`away, this`enabledFlags, this`sent
      ensures away
      ensures Dispatched(old(enabledFlags), old(sent), raised)
      ensures !on ==>
        enabledFlags == {OnOff}
        && sent == old(sent) + [ServiceCall(remoteEntityId, "raw:" + commands[PowerOff].code)]
      ensures on && Idle in commands ==>
        enabledFlags == {OnOff, AwayMode}
        && sent == old(sent) + [ServiceCall(remoteEntityId, "raw:" + commands[Idle].code)]
      ensures raised <==> on && Idle !in commands
    {
      away := true;
      raised := SendIr();
    }

    /** `turn_away_mode_off`. */
    method TurnAwayModeOff() returns (raised: bool)
      requires Valid()
      modifies this`away, this`enabledFlags, this`sent
      ensures !away && !raised
      ensures Dispatched(old(enabledFlags), old(sent), raised)
    {
      away := false;
      raised := SendIr();
    }

    /** `_power_changed_listener`: the rendered template overwrites the on
        flag and the mask is recomputed, but the chosen code is discarded,
        so nothing is transmitted. A template error leaves both alone; no new
        state does nothing. */
    method PowerChanged(hasNewState: bool, rendered: Render) returns (raised: bool)
      requires Valid()
      modifies this`on, this`enabledFlags
      ensures !hasNewState || rendered.TemplateError? ==>
        on == old(on) && enabledFlags == old(enabledFlags) && !raised
      ensures hasNewState && rendered.Rendered? ==>
        on == IsPowerOn(rendered.text)
        && enabledFlags == NextFlags(CurrentResolution(), old(enabledFlags))
        && raised == CurrentResolution().IdleMissing?
    {
      raised := false;
      if !hasNewState {
        return;
      }
      match rendered
      case Rendered(text) =>
        on := IsPowerOn(text);
        var _, r := UpdateFlagsGetCommand();
        raised := r;
      case TemplateError =>
    }

    /** `_temp_changed_listener`: the parsed and unit-converted reading (or
        `None` when it does not parse) becomes the current temperature; the
        code and the mask are untouched. */
    method TempChanged(hasNewState: bool, reading: Option<real>)
      modifies this`currentTemperature
      ensures currentTemperature == if hasNewState then reading else old(currentTemperature)
    {
      if hasNewState {
        currentTemperature := reading;
      }
    }

    /** `async_added_to_hass`: with a saved state, each of operation mode,
        target, mask and fan mode takes the saved attribute when present; on
        and away are on only when saved as `on`. The mask is restored as
        saved, with no resolution and no transmission. */
    method Restore(last: Option<Attributes>)
      modifies this`currentOperation, this`targetTemperature, this`enabledFlags,
               this`currentFanMode, this`on, this`away
      ensures last.None? ==>
        currentOperation == old(currentOperation) && targetTemperature == old(targetTemperature)
        && enabledFlags == old(enabledFlags) && currentFanMode == old(currentFanMode)
        && on == old(on) && away == old(away)
      ensures last.Some? ==>
        currentOperation == last.value.operationMode.GetOr(old(currentOperation))
        && targetTemperature == last.value.temperature.GetOr(old(targetTemperature))
        && enabledFlags == last.value.supportedFeatures.GetOr(old(enabledFlags))
        && currentFanMode == last.value.fanMode.GetOr(old(currentFanMode))
        && on == AttributeIsOn(last.value.power)
        && away == AttributeIsOn(last.value.awayMode)
    {
      if last.Some? {
        var attributes := last.value;
        currentOperation := attributes.operationMode.GetOr(currentOperation);
        targetTemperature := attributes.temperature.GetOr(targetTemperature);
        enabledFlags := attributes.supportedFeatures.GetOr(enabledFlags);
        currentFanMode := attributes.fanMode.GetOr(currentFanMode);
        on := AttributeIsOn(attributes.power);
        away := AttributeIsOn(attributes.awayMode);
      }
    }
  }
}

=== FILE: scenarios.dfy ===
/** Clients of `RemoteClimate` that exercise its contracts on concrete
    sequences of calls: what a caller can conclude from the specifications
    alone. */
module Scenarios {
  import opened Wrappers
  import opened Features
  import opened PyBuiltins
  import opened Commands
  import opened XiaomiRemote

  /** Restoring `{operation_mode: heat, temperature: 20, power: off}` over the
      defaults: those three fields change, the fan mode and mask keep their
      constructed values, and away (absent) is off. Nothing is sent. */
  method RestoreOverDefaults(t: Table)
    returns (operation: string, target: real, on: bool, away: bool, fan: string, flags: Flags, sent: seq<ServiceCall>)
    requires WellFormed(t)
    ensures operation == "heat" && target == 20.0 && !on && !away
    ensures fan == "auto" && flags == {OnOff} && sent == []
  {
    var device := new RemoteClimate("remote.bedroom", t, 24, "cool", "auto");
    device.Restore(Some(Attributes(Some("heat"), Some(20.0), None, None, Some(PowerAttribute(false)), None)));
    operation, target, on, away := device.currentOperation, device.targetTemperature, device.on, device.away;
    fan, flags, sent := device.currentFanMode, device.enabledFlags, device.sent;
  }

  /** Away mode switched on while the device is off still sends the
      power-off code and leaves only on/off enabled. */
  method AwayWhileOff(t: Table) returns (sent: seq<ServiceCall>, flags: Flags, raised: bool)
    requires WellFormed(t)
    ensures sent == [ServiceCall("remote.bedroom", "raw:" + t[PowerOff].code)]
    ensures flags == {OnOff} && !raised
  {
    var device := new RemoteClimate("remote.bedroom", t, 24, "cool", "auto");
    raised := device.TurnAwayModeOn();
    sent, flags := device.sent, device.enabledFlags;
  }

  /** The power listener flips the on flag from the template and recomputes
      the mask (here to the full support mask, since the current modes and
      the default target reach a temperature leaf), but transmits nothing. */
  method PowerListenerIsSilent(t: Table, operation: string, fanMode: string, rendered: string)
    returns (on: bool, flags: Flags, sent: seq<ServiceCall>)
    requires WellFormed(t) && MatchesAt(t, operation, fanMode, 24.0, TemperatureLevel)
    requires IsPowerOn(rendered)
    ensures on && flags == SupportFlags(t) && sent == []
  {
    var device := new RemoteClimate("remote.bedroom", t, 24, operation, fanMode);
    var _ := device.PowerChanged(true, Rendered(rendered));
    TemperatureLeafEnablesAll(t, operation, fanMode, 24.0);
    on, flags, sent := device.on, device.enabledFlags, device.sent;
  }

  /** The code the sample calls below expect under a temperature key. */
  function CodeAt(t: Table, operation: string, fanMode: string, key: int): Code
    requires MatchesAt(t, operation, fanMode, key as real, TemperatureLevel)
  {
    TruncOfInteger(key);
    t[Lower(operation)].fans[Lower(fanMode)].temps[key]
  }

  /** Turning on at 24 degrees and then setting 24.9 sends the code stored
      under 24 twice: truncation keeps the key. */
  method FractionalTargetKeepsKey(t: Table, operation: string, fanMode: string) returns (sent: seq<ServiceCall>)
    requires WellFormed(t) && MatchesAt(t, operation, fanMode, 24.0, TemperatureLevel)
    ensures var call := ServiceCall("remote.bedroom", "raw:" + CodeAt(t, operation, fanMode, 24));
      sent == [call, call]
  {
    var device := new RemoteClimate("remote.bedroom", t, 24, operation, fanMode);
    TruncExamples();
    TemperatureLeafEnablesAll(t, operation, fanMode, 24.0);
    TemperatureLeafEnablesAll(t, operation, fanMode, 24.9);
    var _ := device.TurnOn();
    var _ := device.SetTemperature(Some(24.9));
    sent := device.sent;
  }

  /** Setting 25.0 after 24 moves to the code stored under 25. */
  method WholeDegreeChangesKey(t: Table, operation: string, fanMode: string) returns (sent: seq<ServiceCall>)
    requires WellFormed(t)
    requires MatchesAt(t, operation, fanMode, 24.0, TemperatureLevel)
    requires MatchesAt(t, operation, fanMode, 25.0, TemperatureLevel)
    ensures sent == [ServiceCall("remote.bedroom", "raw:" + CodeAt(t, operation, fanMode, 24)),
                     ServiceCall("remote.bedroom", "raw:" + CodeAt(t, operation, fanMode, 25))]
  {
    var device := new RemoteClimate("remote.bedroom", t, 24, operation, fanMode);
    TruncExamples();
    TemperatureLeafEnablesAll(t, operation, fanMode, 24.0);
    TemperatureLeafEnablesAll(t, operation, fanMode, 25.0);
    var _ := device.TurnOn();
    var _ := device.SetTemperature(Some(25.0));
    sent := device.sent;
  }

  /** A fan mode with a direct code turns the temperature control off; then
      a fan mode the table lacks is a miss that sends nothing and keeps the
      mask. */
  method FanLevelThenMiss(t: Table, operation: string, fanMode: string, otherFan: string)
    returns (flags1: Flags, flags2: Flags, sent: seq<ServiceCall>)
    requires WellFormed(t) && MatchesAt(t, operation, fanMode, 24.0, FanLevel)
    requires Lower(otherFan) !in t[Lower(operation)].fans
    ensures flags1 == flags2 == SupportFlags(t) - {TargetTemperature}
    ensures sent == [ServiceCall("remote.bedroom", "raw:" + t[Lower(operation)].fans[Lower(fanMode)].code)]
  {
    var device := new RemoteClimate("remote.bedroom", t, 24, operation, fanMode);
    FanLeafDisablesTemperature(t, operation, fanMode, 24.0);
    var _ := device.TurnOn();
    flags1 := device.enabledFlags;
    var _ := device.SetFanMode(otherFan);
    flags2, sent := device.enabledFlags, device.sent;
  }
}

=== FILE: wrappers.dfy ===
/** An optional value, for the source's `None`. */
module Wrappers {

  datatype Option<T> = None | Some(value: T) {

    /** `dict.get(key, default)`: the value if present, else the default. */
    function GetOr(default: T): T {
      if Some? then value else default
    }
  }
}
